=== FILE: README.md ===
# HuddleUp signaling relay, modelled in Dafny

HuddleUp is a video-call room service. Its server relays signaling over Socket.IO.
A client's connection must carry a JWT. After connecting, the client joins a room under its PeerJS id.
The server then announces `user-connected` to the room's other members.
Chat is fanned out as `new-chat-message`, and a departing peer is meant to be announced as `user-disconnected` (as written it never is; see Findings).
The browser page keeps a registry of remote peers and a chat log, and it guards the send box.

The model is functional. Each event handler is a pure step. It takes the state and the event's arguments.
It returns the new state and the broadcasts it issued, as `Emit(recipients, message)`.

- `Js` (`js.dfy`): `Option` for `undefined`, string truthiness, dictionary and array lookups.
- `Auth` (`auth.dfy`): the authentication middleware. `jwt.verify` is an oracle parameter `string -> Verdict`.
- `Transport` (`transport.dfy`): the parts of Socket.IO the relay depends on.
  Each socket has an ordered room list whose first entry is its own id.
  `socket.join` adds a room to that list. `socket.to(room)` reaches the room's members minus every member of the room named by the sender's id.
  Normally that room holds only the sender, but any socket may join it.
  `io.to(room)` reaches every member. A closing socket leaves every room.
- `Relay` (`relay.dfy`): the server state. It holds the module-wide socket→peer-id map, the room lists and each socket's `user`.
  It also holds the `connection`, `join-room`, `chat-message` and `disconnect` handlers, an event dispatcher and a run over event sequences.
- `RoomClient` (`client.dfy`): the page's `peersRef` map and `peers` list, which are kept in lockstep.
  It also has the chat log, `String.prototype.trim` and the send guard.
  Media calls and socket emits are returned as effects.
- `Scenarios` (`scenarios.dfy`): a concrete two-user run through all the handlers (step lemmas over the shape of each state, applied to the concrete states by `Scenarios.TwoUserRun` and `Scenarios.IdRoomRun`), a refused connection, and a socket that misses an announcement because it joined another socket's id room.

The room list that the `disconnect` handler sees is an input to `Relay.Disconnect`.
Two closings build on it. `Relay.CloseAsWritten` models the code as written. `Relay.CloseCorrected` is the intended behaviour (see Findings).
`Relay.Dispatch` and `Relay.Run` take a `CloseMode` that selects one of them. `Relay.RunPreservesValid` is proved for both modes. `Relay.AsWrittenNeverAnnouncesDeparture` is about `AsWritten` only, the mode that matches the code.

The model follows the code in these points, some of which a reader might not expect:
- chat is sent to the whole room, sender included (`io.to`);
- a second `join-room` from the same socket is not rejected: it overwrites the peer id and adds the room unless it is already in the list;
- the room used for chat and leave announcements is the second entry of the socket's room list, so it is always the first room joined, provided that room's name is non-empty and differs from the socket's id (`Relay.CurrentRoomIsFirstJoin`);
- the "room" is never stored by the relay. Membership is derived from the sockets' room lists, so an empty room leaves nothing behind.
  A peer id that is the empty string is falsy and is never deleted, so it can outlive its socket (`Relay.Valid` permits exactly that).
- the page looks peers up in a plain object, so an id such as `toString` or `constructor` finds an inherited member.
  A stream from such a peer is never registered. A `user-disconnected` for it throws before the tiles are filtered (`RoomClient.InheritedIdNeverListed`).

## Model

| member | source | states |
|---|---|---|
| Auth.Authenticate | backend/controllers/socketManager.js:17-33 | A missing or empty token is refused with "Authentication error: No token provided.". A token the verifier rejects is refused with "Authentication error: Invalid token.". Otherwise the connection is admitted, with exactly the id and username claims as its user. |
| Relay.Connect | backend/controllers/socketManager.js:17-33 | A refused connection leaves the server unchanged and attaches no user. An admitted one gets the verified `{id, username}`, and its room list is its own id only, so it joins exactly the room named by its id. The peer map is untouched and the invariant is kept. |
| Transport.Open | backend/controllers/socketManager.js:35 | A new socket's room list is its own id alone. It becomes the one new member of that room, and every other room is unchanged. |
| Transport.ToOthers | backend/controllers/socketManager.js:45 | `socket.to(room)` reaches only members of the room and none of the members of the room named by the sender's id, so never the sender itself. The exact audience is stated by `Transport.ToOthersIsOthers` and by the emit clauses of `Relay.JoinRoom`. |
| Transport.ToOthersIsOthers | backend/controllers/socketManager.js:44-45 | When no other socket has joined a room named by a socket id, `socket.to(room)` reaches exactly the room's members other than the sender. |
| Transport.ToOthersSkipsIdRoom | backend/controllers/socketManager.js:45 | A member of the room that has also joined the room named by the sender's id is left out of `socket.to(room)`. |
| Transport.AddRoom | backend/controllers/socketManager.js:42 | Joining adds the room. Earlier rooms keep their order and nothing is duplicated. |
| Transport.Join | backend/controllers/socketManager.js:42 | `socket.join` changes only the joiner's list, which gains the room. Every other socket's list and the set of sockets are unchanged, and the lists stay well formed. |
| Transport.JoinMembers | backend/controllers/socketManager.js:42 | After a join, the room's members are the earlier members plus the joiner. Every other room is unchanged. |
| Transport.JoinAllKeepsPrefix | backend/controllers/socketManager.js:51-52 | Later joins never move rooms already in a socket's list. |
| Transport.Close | backend/controllers/socketManager.js:67 | A closing socket leaves every room: the socket is gone from the table and from every room's members, and no one else's membership changes. |
| Relay.JoinRoom | backend/controllers/socketManager.js:39-47 | The map sends the socket to the new peer id, replacing any earlier one. Every other key, every user and every other socket's rooms are unchanged. The socket becomes a member of the room, and no other room's membership changes. One `user-connected(peerId)` goes to the room's earlier members minus the members of the joiner's id room; when no one else has joined an id room, that is the earlier members minus the joiner, so an empty room notifies nobody. The invariant is kept. |
| Relay.CurrentRoom | backend/controllers/socketManager.js:52-54 | A socket has a room to act on exactly when its room list has a second entry that is non-empty, and that room is then the second entry. What this means for a caller, that the room is the first one joined, is stated by `Relay.CurrentRoomIsFirstJoin`. |
| Relay.NoRoomBeforeJoin | backend/controllers/socketManager.js:51-54 | A socket whose list holds only its own id has no room to act on. |
| Relay.CurrentRoomIsFirstJoin | backend/controllers/socketManager.js:51-52 | The room found at index 1 is the first room joined, when that room is non-empty and is not the socket's own id, whatever is joined later. |
| Relay.ChatMessage | backend/controllers/socketManager.js:50-62 | Without a room at index 1 nothing is sent. Otherwise one `new-chat-message` carrying the sender's username and the unaltered data goes to every member of that room, the sender included. The state never changes. |
| Relay.ChatUsesJoinedRoom | backend/controllers/socketManager.js:39-62 | After a socket's only `join-room`, to a room that is non-empty and is not the socket's own id, its chat reaches the room's earlier members plus itself, under its own username. |
| Relay.Disconnect | backend/controllers/socketManager.js:67-81 | With no truthy peer id mapped, nothing is sent and nothing changes. Otherwise exactly that key is deleted. `user-disconnected(peerId)` goes to the other members only when the seen room list has a room at index 1. |
| Relay.DisconnectIdempotent | backend/controllers/socketManager.js:69-80 | A second disconnect of the same socket sends nothing and changes nothing. |
| Relay.Forget | backend/controllers/socketManager.js:67 | Teardown removes the socket and its user, leaves every other socket's rooms and the peer map alone, and removes the socket from every room's members. |
| Relay.CloseAsWritten | backend/controllers/socketManager.js:67-81 | When the transport clears the room list before the handler runs, a closing socket's departure is never announced. The socket leaves every room, its truthy map entry is deleted, and the invariant is kept. |
| Relay.CloseCorrected | backend/controllers/socketManager.js:67-81 | When the socket has a non-empty peer id and the handler reads the room list before teardown, the members of the room at index 1, minus those of the socket's id room, get `user-disconnected`, and never the departing socket. The socket leaves every room and its truthy map entry is deleted. The invariant is kept. |
| Relay.AsWrittenLosesDeparture | backend/controllers/socketManager.js:72-77 | When the departing socket has a non-empty peer id and another socket shares its room at index 1 without having joined the room named by the departing socket's id, the corrected close tells that socket and the close as written does not. |
| Relay.Dispatch | backend/controllers/socketManager.js:35-82 | Routing any event to its handler keeps the invariant, under either close mode. The invariant: room lists start with the socket's own id and have no repeats, every connected socket has a user, and only an empty peer id outlives its socket. |
| Relay.CloseOnce | backend/controllers/socketManager.js:67-81 | Teardown happens once: a repeated close is dropped. |
| Relay.RunPreservesValid | backend/controllers/socketManager.js:6-82 | Every state reachable by a sequence of events satisfies the invariant, for the code as written and for the corrected close. |
| Relay.AsWrittenNeverAnnouncesDeparture | backend/controllers/socketManager.js:67-81 | With the close as written, no sequence of events ever sends `user-disconnected`. |
| RoomClient.InitialLockstep | frontend/src/pages/RoomPage.jsx:41-54 | The empty page satisfies the lockstep invariant. |
| RoomClient.OnStream | frontend/src/pages/RoomPage.jsx:89-94 | A stream from a peer whose lookup is falsy files its call under the peer id and appends one "Peer" tile at the end. A stream from a registered peer, or from an id naming an inherited member, changes nothing. The lockstep invariant is kept. The outgoing-call handler at lines 103-108 has the same body. |
| RoomClient.StreamIdempotent | frontend/src/pages/RoomPage.jsx:103-108 | Repeated streams for one peer never create a second entry. |
| RoomClient.RemovePeer | frontend/src/pages/RoomPage.jsx:117 | The filter keeps exactly the tiles whose peer id differs. |
| RoomClient.RemovePeerIds | frontend/src/pages/RoomPage.jsx:117 | After filtering, the listed peer ids are the earlier ones minus the removed id, and distinct ids stay distinct. |
| RoomClient.RemoveAbsentPeer | frontend/src/pages/RoomPage.jsx:117 | Filtering out an unlisted peer id returns the list unchanged. |
| RoomClient.RemoveListedPeer | frontend/src/pages/RoomPage.jsx:117 | Filtering out a peer listed once removes exactly its tile, and the others keep their order. |
| RoomClient.OnUserDisconnected | frontend/src/pages/RoomPage.jsx:112-118 | A registered peer's call is closed and its key deleted. Other keys keep their calls. Exactly the tiles with a different peer id remain, and the chat state is untouched. For an id naming an inherited member the handler throws, and nothing changes. |
| RoomClient.DisconnectLockstep | frontend/src/pages/RoomPage.jsx:113-117 | A departure keeps the registry keys equal to the tiles' peer ids, each listed once. |
| RoomClient.DisconnectUnknownPeer | frontend/src/pages/RoomPage.jsx:113-117 | A `user-disconnected` for a peer id the page does not know changes neither `peersRef` nor `peers` and closes nothing; for an id naming an inherited member the handler throws. |
| RoomClient.DisconnectKeepsOrder | frontend/src/pages/RoomPage.jsx:112-118 | After a listed peer leaves, the tiles are the other tiles in their earlier order. |
| RoomClient.OnNewChatMessage | frontend/src/pages/RoomPage.jsx:121-123 | A message is appended at the end. Earlier messages and the registry are untouched. |
| RoomClient.ReceiveAllAppends | frontend/src/pages/RoomPage.jsx:121-123 | After any arrivals, the log is the old log followed by the arrivals in order. |
| RoomClient.TrimStart | frontend/src/pages/RoomPage.jsx:137 | Removes exactly the leading ECMAScript white space and returns a suffix of the input. |
| RoomClient.TrimEnd | frontend/src/pages/RoomPage.jsx:137 | Removes exactly the trailing ECMAScript white space and returns a prefix of the input. |
| RoomClient.Trim | frontend/src/pages/RoomPage.jsx:137 | `trim()` returns a contiguous slice of the input, with only white space cut from either side, and the slice starts and ends with a character that is not white space. |
| RoomClient.CutBothEnds | frontend/src/pages/RoomPage.jsx:137 | Cutting a white-space prefix and then a white-space suffix leaves a slice of the original with white space only outside it. |
| RoomClient.TrimEmptyIff | frontend/src/pages/RoomPage.jsx:137 | `trim()` is empty exactly when every character is white space. |
| RoomClient.HandleSendMessage | frontend/src/pages/RoomPage.jsx:137 | With a visible character and a socket, the untrimmed text is sent and the box is cleared. Otherwise nothing is sent and nothing changes, so an all-white-space box is not cleared. |
| RoomClient.Handle | frontend/src/pages/RoomPage.jsx:78-123 | Every page event keeps `peersRef` keys equal to the tiles' peer ids, with one tile per peer and each call filed under its own peer. |
| RoomClient.LockstepAlways | frontend/src/pages/RoomPage.jsx:89-118 | The lockstep invariant holds after any sequence of page events. |
| RoomClient.InheritedIdNeverListed | frontend/src/pages/RoomPage.jsx:90-92 | A peer id naming an inherited `Object.prototype` member never gets a registry key or a tile, whatever the page goes through. |
| Scenarios.ConnectedState | backend/controllers/socketManager.js:17-33 | Two admitted sockets each sit in their own room, and nothing is mapped yet. |
| Scenarios.FirstJoinTellsNobody | backend/controllers/socketManager.js:39-47 | The first joiner of "abc" triggers a `user-connected` that reaches nobody. |
| Scenarios.SecondJoinTellsFirst | backend/controllers/socketManager.js:39-47 | The second joiner's `user-connected("h2")` reaches the first joiner only. |
| Scenarios.ChatReachesWholeRoom | backend/controllers/socketManager.js:50-62 | B's "hello" reaches both A and B as `{senderUsername: "bob", content: "hello"}`. |
| Scenarios.LeaveTellsTheOthers | backend/controllers/socketManager.js:67-81 | B's departure reaches A under the corrected close and nobody as written. |
| Scenarios.ChatBeforeJoinIsDropped | backend/controllers/socketManager.js:50-54 | A chat sent before any join is dropped. |
| Scenarios.RefusedConnectionCannotJoin | backend/controllers/socketManager.js:17-25 | A connection without a token, or with a token the verifier refuses, gets no state, and its join is dropped. |
| Scenarios.IdRoomMemberMissesAnnouncement | backend/controllers/socketManager.js:42-45 | A socket that joined the room named by A's id and then "abc" is not told when A joins "abc". |
| Scenarios.TwoUserRun | backend/controllers/socketManager.js:39-81 | On the concrete run, B's join reaches A only, B's "hello" reaches A and B, and B's departure reaches A under the corrected close and nobody as written. |
| Scenarios.IdRoomRun | backend/controllers/socketManager.js:42-45 | On the concrete run, C has joined "abc" and is still not told when A joins "abc". |

The page handlers `RoomClient.OnOpen`, `RoomClient.OnCall` and `RoomClient.OnUserConnected` (RoomPage.jsx lines 78-81, 84-87 and 98-101) only emit or place a call. What they promise about the registry is covered by `RoomClient.Handle` and `RoomClient.LockstepAlways`.

## Left out

- JWT signature and expiry checks: `jwt.verify` is the oracle parameter `verify`, and the process secret is not modelled.
- Socket.IO server construction, CORS settings and console logging: these are transport plumbing and output.
- Asynchrony: each handler is one atomic step. React's `setPeers`/`setMessages` updates take effect at once, and delivery order across sockets is not modelled.
- PeerJS media: `call.answer`, `peer.call`, `call.close`, `getUserMedia`, track toggles, screen share and clipboard. These appear only as effects (`AnswerCall`, `PlaceCall`, `CloseCall`) or not at all.
- Rendering and routing of every page, login/register HTTP handlers, password hashing, the database and the client's token decoding. These are UI or I/O around the relay.
- Non-string JavaScript values: room ids, peer ids, chat data and tokens are strings. `undefined` is `None`, and the empty string is the only falsy value.
- Relay.Disconnect: the peer map is a plain object, but socket ids are random ids generated by the transport, so the model treats a missing key as `undefined` and never an inherited `Object.prototype` member.
- Relay.ChatMessage: the sender is assumed to have a user. The middleware guarantees this for every connected socket, and `Relay.Valid` records it.

## Findings

| source | as written | input that shows it | evidently intended | confidence | as-written member | corrected member |
|---|---|---|---|---|---|---|
| backend/controllers/socketManager.js:67-77 | The departure is announced from the `disconnect` event. The room comes from `Array.from(socket.rooms)[1]`. In Socket.IO v4 the socket has already left every room when `disconnect` fires, so the lookup gives `undefined` and nothing is sent. | Users A and B are in room "abc" and B closes. A never receives `user-disconnected("h2")` (`Scenarios.LeaveTellsTheOthers`, on the concrete run `Scenarios.TwoUserRun`). | The comment at line 75 says the other members should be told that the peer left. This needs the room list read before teardown, as the `disconnecting` event provides. | medium; not executed. It depends on Socket.IO v4 clearing `socket.rooms` before `disconnect`, which is library behaviour outside this repository. | Relay.CloseAsWritten, Relay.AsWrittenLosesDeparture | Relay.CloseCorrected |

=== FILE: auth.dfy ===
/** The connection gate that runs before any event handler: a bearer token from
    the handshake is checked with `jwt.verify`, whose cryptography is an oracle here. */
module Auth {
  import opened Js

  /** The identity claims a verified token carries, as signed at login. */
  datatype Claims = Claims(id: string, username: string)

  /** The outcome of `jwt.verify`: an error (bad signature, expired, malformed)
      or the decoded claims. */
  datatype Verdict = VerifyError | Decoded(claims: Claims)

  /** The identity attached to an admitted socket as `socket.user`. */
  datatype User = User(id: string, username: string)

  /** `next()` admits; `next(new Error(message))` refuses the connection. */
  datatype Admission = Admitted(user: User) | Rejected(message: string)

  const NoTokenMessage: string := "Authentication error: No token provided."
  const InvalidTokenMessage: string := "Authentication error: Invalid token."

  /** The middleware: a missing or empty token is refused without consulting
      the verifier; a token the verifier rejects is refused; otherwise exactly
      the id and username claims become the socket's user. */
  function Authenticate(token: Option<string>, verify: string -> Verdict): (r: Admission)
    ensures !Truthy(token) ==> r == Rejected(NoTokenMessage)
    ensures Truthy(token) && verify(token.value).VerifyError? ==> r == Rejected(InvalidTokenMessage)
    ensures r.Admitted? <==> Truthy(token) && verify(token.value).Decoded?
    ensures r.Admitted? ==>
      var c := verify(token.value).claims;
      r.user.id == c.id && r.user.username == c.username
  {
    if !Truthy(token) then
      Rejected(NoTokenMessage)
    else
      match verify(token.value)
      case VerifyError => Rejected(InvalidTokenMessage)
      case Decoded(c) => Admitted(User(c.id, c.username))
  }
}

=== FILE: client.dfy ===
/** The room page's bookkeeping on the client: the registry of remote peers
    (a call object per peer id plus the list of peer tiles), the chat log and
    the send guard of the chat box. Each handler is an atomic step; state
    setters take effect at once. Media and socket calls are returned as effects. */
module RoomClient {
  import opened Js

  type PeerId = string

  /** A PeerJS media connection, known by the peer at its far end. */
  datatype Call = Call(peer: PeerId, handle: nat)

  /** A remote media stream, opaque here. */
  type Stream = nat

  /** One tile in the peer list. */
  datatype PeerEntry = PeerEntry(peerId: PeerId, stream: Stream, username: string)

  /** A chat message as the relay sends it. */
  datatype ChatPayload = ChatPayload(senderUsername: string, content: string)

  /** `peersRef.current`, `peers`, `messages` and `newMessage`. */
  datatype Client = Client(peersRef: map<PeerId, Call>, peers: seq<PeerEntry>, messages: seq<ChatPayload>, newMessage: string)

  /** What a handler asks of the outside world. */
  datatype Effect =
    | SendJoinRoom(roomId: string, peerId: PeerId)
    | AnswerCall(call: Call)
    | PlaceCall(peerId: PeerId)
    | CloseCall(call: Call)
    | SendChat(text: string)
    | ThrewTypeError

  datatype Step = Step(client: Client, effects: seq<Effect>)

  const Initial: Client := Client(map[], [], [], "")

  /** The label every remote tile carries. */
  const PeerLabel: string := "Peer"

  function PeerIds(peers: seq<PeerEntry>): set<PeerId>
  {
    set p | p in peers :: p.peerId
  }

  ghost predicate DistinctIds(peers: seq<PeerEntry>)
  {
    forall i, j :: 0 <= i < j < |peers| ==> peers[i].peerId != peers[j].peerId
  }

  /** `peersRef.current[peerId]` is truthy: an own entry, or a member every
      object inherits from `Object.prototype`. */
  predicate Found(c: Client, peerId: PeerId)
  {
    peerId in c.peersRef || peerId in ObjectPrototypeKeys
  }

  /** The registry and the list move together: the same peer ids, each listed
      once, every call filed under the peer it connects to, and no own entry
      under an inherited name. */
  ghost predicate Lockstep(c: Client)
  {
    && PeerIds(c.peers) == c.peersRef.Keys
    && DistinctIds(c.peers)
    && (forall k :: k in c.peersRef ==> c.peersRef[k].peer == k)
    && c.peersRef.Keys !! ObjectPrototypeKeys
  }

  lemma InitialLockstep()
    ensures Lockstep(Initial)
  {
  }

  /** `open`: the page asks the relay to join the room under its new peer id;
      the registry is untouched. */
  function OnOpen(c: Client, roomId: string, peerId: PeerId): (r: Step)
    ensures r.client == c
    ensures r.effects == [SendJoinRoom(roomId, peerId)]
  {
    Step(c, [SendJoinRoom(roomId, peerId)])
  }

  /** `call`: an incoming call is answered; the peer is registered only once
      its stream arrives. */
  function OnCall(c: Client, call: Call): (r: Step)
    ensures r.client == c
    ensures r.effects == [AnswerCall(call)]
  {
    Step(c, [AnswerCall(call)])
  }

  /** `user-connected`: the page calls the announced peer; the peer is
      registered only once that call's stream arrives. */
  function OnUserConnected(c: Client, peerId: PeerId): (r: Step)
    ensures r.client == c
    ensures r.effects == [PlaceCall(peerId)]
  {
    Step(c, [PlaceCall(peerId)])
  }

  /** `stream` on a call (incoming or outgoing alike): register the peer and
      append its tile, unless the lookup of its id is truthy, which holds for a
      registered peer and for an id naming an inherited member. */
  function OnStream(c: Client, call: Call, stream: Stream): (r: Client)
    ensures Found(c, call.peer) ==> r == c
    ensures call.peer in ObjectPrototypeKeys ==> r == c
    ensures !Found(c, call.peer) ==>
      && r.peersRef.Keys == c.peersRef.Keys + {call.peer}
      && r.peersRef[call.peer] == call
      && (forall k :: k in c.peersRef ==> r.peersRef[k] == c.peersRef[k])
      && |r.peers| == |c.peers| + 1
      && r.peers[..|c.peers|] == c.peers
      && r.peers[|c.peers|] == PeerEntry(call.peer, stream, PeerLabel)
    ensures r.messages == c.messages && r.newMessage == c.newMessage
    ensures Lockstep(c) ==> Lockstep(r)
    ensures Lockstep(c) && call.peer !in ObjectPrototypeKeys ==> PeerIds(r.peers) == PeerIds(c.peers) + {call.peer}
  {
    if !Found(c, call.peer) then
      var peers := c.peers + [PeerEntry(call.peer, stream, PeerLabel)];
      assert PeerIds(peers) == PeerIds(c.peers) + {call.peer} by {
        assert forall p :: p in peers <==> p in c.peers || p == peers[|c.peers|];
      }
      c.(peersRef := c.peersRef[call.peer := call], peers := peers)
    else
      c
  }

  /** A repeated stream for a registered peer never adds a second tile. */
  lemma StreamIdempotent(c: Client, call: Call, first: Stream, again: Stream)
    ensures OnStream(OnStream(c, call, first), call, again) == OnStream(c, call, first)
  {
  }

  /** `prev.filter(p => p.peerId !== peerId)`. */
  function RemovePeer(peers: seq<PeerEntry>, peerId: PeerId): (r: seq<PeerEntry>)
    ensures forall p :: p in r <==> p in peers && p.peerId != peerId
    decreases |peers|
  {
    if peers == [] then []
    else
      var rest := RemovePeer(peers[1..], peerId);
      assert forall p :: p in peers <==> p == peers[0] || p in peers[1..];
      if peers[0].peerId == peerId then rest else [peers[0]] + rest
  }

  /** Filtering keeps the registry's view of the list: the remaining ids are
      the earlier ones less the removed one, still each listed once. */
  lemma {:induction false} RemovePeerIds(peers: seq<PeerEntry>, peerId: PeerId)
    ensures PeerIds(RemovePeer(peers, peerId)) == PeerIds(peers) - {peerId}
    ensures DistinctIds(peers) ==> DistinctIds(RemovePeer(peers, peerId))
    decreases |peers|
  {
    var r := RemovePeer(peers, peerId);
    assert forall p :: p in r <==> p in peers && p.peerId != peerId;
    if peers != [] {
      RemovePeerIds(peers[1..], peerId);
      if DistinctIds(peers) && peers[0].peerId != peerId {
        var rest := RemovePeer(peers[1..], peerId);
        assert r == [peers[0]] + rest;
        assert forall k :: 0 <= k < |rest| ==> rest[k] in peers[1..];
        assert forall q :: q in peers[1..] ==> q.peerId != peers[0].peerId;
      }
    }
  }

  /** Filtering out a peer that is not listed changes nothing. */
  lemma {:induction false} RemoveAbsentPeer(peers: seq<PeerEntry>, peerId: PeerId)
    ensures (forall i :: 0 <= i < |peers| ==> peers[i].peerId != peerId) ==> RemovePeer(peers, peerId) == peers
    decreases |peers|
  {
    if peers != [] && forall i :: 0 <= i < |peers| ==> peers[i].peerId != peerId {
      assert forall i :: 0 <= i < |peers[1..]| ==> peers[1..][i] == peers[i + 1];
      RemoveAbsentPeer(peers[1..], peerId);
      assert peers == [peers[0]] + peers[1..];
    }
  }

  /** Filtering out a peer listed once removes exactly its tile: the others
      keep their order. */
  lemma {:induction false} RemoveListedPeer(peers: seq<PeerEntry>, i: nat)
    requires DistinctIds(peers)
    requires i < |peers|
    ensures RemovePeer(peers, peers[i].peerId) == peers[..i] + peers[i + 1..]
    decreases i
  {
    var id := peers[i].peerId;
    var tail := peers[1..];
    if i == 0 {
      assert forall k :: 0 <= k < |tail| ==> tail[k].peerId != id by {
        forall k | 0 <= k < |tail|
          ensures tail[k].peerId != id
        {
          assert tail[k] == peers[k + 1];
        }
      }
      RemoveAbsentPeer(tail, id);
    } else {
      assert peers[0].peerId != id;
      assert RemovePeer(peers, id) == [peers[0]] + RemovePeer(tail, id);
      assert tail[i - 1] == peers[i];
      assert DistinctIds(tail) by {
        forall a, b | 0 <= a < b < |tail|
          ensures tail[a].peerId != tail[b].peerId
        {
          assert tail[a] == peers[a + 1] && tail[b] == peers[b + 1];
        }
      }
      RemoveListedPeer(tail, i - 1);
      assert peers[..i] == [peers[0]] + tail[..i - 1];
      assert peers[i + 1..] == tail[i..];
    }
  }

  /** `user-disconnected`: close and forget the peer's call if there is one,
      and drop every tile with that peer id. For an id naming an inherited
      member the lookup is truthy but `close` is not a function: the handler
      throws before deleting or filtering anything. */
  function OnUserDisconnected(c: Client, peerId: PeerId): (r: Step)
    ensures peerId in c.peersRef ==>
      && r.effects == [CloseCall(c.peersRef[peerId])]
      && r.client.peersRef.Keys == c.peersRef.Keys - {peerId}
      && (forall k :: k in r.client.peersRef ==> r.client.peersRef[k] == c.peersRef[k])
    ensures peerId !in c.peersRef && peerId in ObjectPrototypeKeys ==> r == Step(c, [ThrewTypeError])
    ensures !Found(c, peerId) ==> r.effects == [] && r.client.peersRef == c.peersRef
    ensures peerId !in c.peersRef && peerId in ObjectPrototypeKeys ==> r.client.peers == c.peers
    ensures peerId in c.peersRef || peerId !in ObjectPrototypeKeys ==>
      forall p :: p in r.client.peers <==> p in c.peers && p.peerId != peerId
    ensures r.client.messages == c.messages && r.client.newMessage == c.newMessage
  {
    if peerId in c.peersRef then
      Step(c.(peersRef := c.peersRef - {peerId}, peers := RemovePeer(c.peers, peerId)), [CloseCall(c.peersRef[peerId])])
    else if peerId in ObjectPrototypeKeys then
      Step(c, [ThrewTypeError])
    else
      Step(c.(peers := RemovePeer(c.peers, peerId)), [])
  }

  /** A departure keeps the registry and the tiles in lockstep. */
  lemma DisconnectLockstep(c: Client, peerId: PeerId)
    ensures Lockstep(c) ==> Lockstep(OnUserDisconnected(c, peerId).client)
  {
    RemovePeerIds(c.peers, peerId);
  }

  /** A departure of a peer the page does not know changes neither `peersRef`
      nor `peers` and closes nothing. */
  lemma DisconnectUnknownPeer(c: Client, peerId: PeerId)
    requires Lockstep(c)
    requires peerId !in c.peersRef
    ensures OnUserDisconnected(c, peerId).client == c
    ensures peerId !in ObjectPrototypeKeys ==> OnUserDisconnected(c, peerId).effects == []
    ensures peerId in ObjectPrototypeKeys ==> OnUserDisconnected(c, peerId).effects == [ThrewTypeError]
  {
    assert forall i :: 0 <= i < |c.peers| ==> c.peers[i].peerId != peerId by {
      assert forall i :: 0 <= i < |c.peers| ==> c.peers[i] in c.peers;
    }
    RemoveAbsentPeer(c.peers, peerId);
  }

  /** When a listed peer leaves, the remaining tiles are the others in their
      earlier order. */
  lemma DisconnectKeepsOrder(c: Client, i: nat)
    requires Lockstep(c)
    requires i < |c.peers|
    ensures OnUserDisconnected(c, c.peers[i].peerId).client.peers == c.peers[..i] + c.peers[i + 1..]
  {
    RemoveListedPeer(c.peers, i);
  }

  /** `new-chat-message`: append at the end of the log. */
  function OnNewChatMessage(c: Client, m: ChatPayload): (r: Client)
    ensures |r.messages| == |c.messages| + 1
    ensures r.messages[..|c.messages|] == c.messages
    ensures r.messages[|c.messages|] == m
    ensures r.peersRef == c.peersRef && r.peers == c.peers && r.newMessage == c.newMessage
  {
    c.(messages := c.messages + [m])
  }

  /** Messages arriving one after another. */
  function ReceiveAll(c: Client, ms: seq<ChatPayload>): Client
    decreases |ms|
  {
    if ms == [] then c else ReceiveAll(OnNewChatMessage(c, ms[0]), ms[1..])
  }

  /** The log is the earlier log followed by the arrivals in arrival order. */
  lemma {:induction false} ReceiveAllAppends(c: Client, ms: seq<ChatPayload>)
    ensures ReceiveAll(c, ms).messages == c.messages + ms
    decreases |ms|
  {
    if ms != [] {
      ReceiveAllAppends(OnNewChatMessage(c, ms[0]), ms[1..]);
      assert c.messages + [ms[0]] + ms[1..] == c.messages + ms;
    }
  }

  /** ECMAScript white space and line terminators, which `trim` strips:
      tab, vertical tab, form feed, space, no-break space, the byte order mark,
      the other space separators, and line feed, carriage return, line and
      paragraph separators. */
  predicate IsJsSpace(ch: char)
  {
    ch in JsSpaces
  }

  const JsSpaces: set<char> := {
    '\U{0009}', '\U{000A}', '\U{000B}', '\U{000C}', '\U{000D}', '\U{0020}', '\U{00A0}', '\U{1680}',
    '\U{2000}', '\U{2001}', '\U{2002}', '\U{2003}', '\U{2004}', '\U{2005}', '\U{2006}', '\U{2007}',
    '\U{2008}', '\U{2009}', '\U{200A}', '\U{2028}', '\U{2029}', '\U{202F}', '\U{205F}', '\U{3000}',
    '\U{FEFF}'
  }

  /** A string with a character that `trim` keeps. */
  ghost predicate HasVisible(s: string)
  {
    exists i :: 0 <= i < |s| && !IsJsSpace(s[i])
  }

  /** Leading white space removed. */
  function TrimStart(s: string): (r: string)
    ensures |r| <= |s| && r == s[|s| - |r|..]
    ensures forall i :: 0 <= i < |s| - |r| ==> IsJsSpace(s[i])
    ensures r == [] || !IsJsSpace(r[0])
    decreases |s|
  {
    if |s| > 0 && IsJsSpace(s[0]) then TrimStart(s[1..]) else s
  }

  /** Trailing white space removed. */
  function TrimEnd(s: string): (r: string)
    ensures |r| <= |s| && r == s[..|r|]
    ensures forall i :: |r| <= i < |s| ==> IsJsSpace(s[i])
    ensures r == [] || !IsJsSpace(r[|r| - 1])
    decreases |s|
  {
    if |s| > 0 && IsJsSpace(s[|s| - 1]) then TrimEnd(s[..|s| - 1]) else s
  }

  /** `String.prototype.trim`. */
  function Trim(s: string): (r: string)
    ensures exists a :: TrimmedAt(s, r, a)
    ensures r == [] || (!IsJsSpace(r[0]) && !IsJsSpace(r[|r| - 1]))
  {
    var t := TrimStart(s);
    var r := TrimEnd(t);
    CutBothEnds(s, t, r);
    r
  }

  /** `t` is `s` without a white-space prefix, `r` is `t` without a
      white-space suffix. */
  lemma CutBothEnds(s: string, t: string, r: string)
    requires |t| <= |s| && t == s[|s| - |t|..]
    requires forall i :: 0 <= i < |s| - |t| ==> IsJsSpace(s[i])
    requires t == [] || !IsJsSpace(t[0])
    requires |r| <= |t| && r == t[..|r|]
    requires forall i :: |r| <= i < |t| ==> IsJsSpace(t[i])
    requires r == [] || !IsJsSpace(r[|r| - 1])
    ensures TrimmedAt(s, r, |s| - |t|)
    ensures r == [] || (!IsJsSpace(r[0]) && !IsJsSpace(r[|r| - 1]))
  {
    var a := |s| - |t|;
    forall i | a + |r| <= i < |s|
      ensures IsJsSpace(s[i])
    {
      assert s[i] == t[i - a];
    }
    if r != [] {
      assert r[0] == t[0];
    }
  }

  /** `r` is `s` with `a` white-space characters cut from the front and only
      white space cut from the back. */
  ghost predicate TrimmedAt(s: string, r: string, a: int)
  {
    && 0 <= a <= |s| - |r|
    && r == s[a..a + |r|]
    && (forall i :: 0 <= i < a ==> IsJsSpace(s[i]))
    && (forall i :: a + |r| <= i < |s| ==> IsJsSpace(s[i]))
  }

  /** `trim` yields the empty string exactly when every character is white space. */
  lemma TrimEmptyIff(s: string)
    ensures Trim(s) == "" <==> !HasVisible(s)
  {
  }

  /** `handleSendMessage`: with text that survives `trim` and a live socket,
      send the text as typed and clear the box; otherwise do nothing at all. */
  function HandleSendMessage(c: Client, socketReady: bool): (r: Step)
    ensures HasVisible(c.newMessage) && socketReady ==>
      r.effects == [SendChat(c.newMessage)] && r.client == c.(newMessage := "")
    ensures !(HasVisible(c.newMessage) && socketReady) ==> r == Step(c, [])
  {
    TrimEmptyIff(c.newMessage);
    if Trim(c.newMessage) != "" && socketReady then
      Step(c.(newMessage := ""), [SendChat(c.newMessage)])
    else
      Step(c, [])
  }

  /** What can happen on the page. */
  datatype ClientEvent =
    | Opened(roomId: string, peerId: PeerId)
    | IncomingCall(call: Call)
    | PeerAnnounced(peerId: PeerId)
    | StreamArrived(call: Call, stream: Stream)
    | PeerLeft(peerId: PeerId)
    | ChatArrived(m: ChatPayload)
    | Typed(text: string)
    | Submitted(socketReady: bool)

  function Handle(c: Client, e: ClientEvent): (r: Step)
    ensures Lockstep(c) ==> Lockstep(r.client)
  {
    match e
    case Opened(roomId, peerId) => OnOpen(c, roomId, peerId)
    case IncomingCall(call) => OnCall(c, call)
    case PeerAnnounced(peerId) => OnUserConnected(c, peerId)
    case StreamArrived(call, stream) => Step(OnStream(c, call, stream), [])
    case PeerLeft(peerId) =>
      DisconnectLockstep(c, peerId);
      OnUserDisconnected(c, peerId)
    case ChatArrived(m) => Step(OnNewChatMessage(c, m), [])
    case Typed(text) => Step(c.(newMessage := text), [])
    case Submitted(ready) => HandleSendMessage(c, ready)
  }

  function RunClient(c: Client, events: seq<ClientEvent>): Client
    decreases |events|
  {
    if events == [] then c else RunClient(Handle(c, events[0]).client, events[1..])
  }

  /** From the empty page on, the registry and the tile list stay in lockstep. */
  lemma {:induction false} LockstepAlways(c: Client, events: seq<ClientEvent>)
    requires Lockstep(c)
    ensures Lockstep(RunClient(c, events))
    decreases |events|
  {
    if events != [] {
      LockstepAlways(Handle(c, events[0]).client, events[1..]);
    }
  }

  /** A peer id that names an inherited member is never registered and never
      gets a tile, whatever the page goes through. */
  lemma InheritedIdNeverListed(c: Client, events: seq<ClientEvent>, peerId: PeerId)
    requires Lockstep(c)
    requires peerId in ObjectPrototypeKeys
    ensures peerId !in RunClient(c, events).peersRef
    ensures peerId !in PeerIds(RunClient(c, events).peers)
  {
    LockstepAlways(c, events);
  }
}

=== FILE: js.dfy ===
/** Small JavaScript value helpers shared by the server and client models. */
module Js {

  /** `undefined`/`null` is `None`; a present value is `Some`. */
  datatype Option<T> = None | Some(value: T)

  /** JavaScript truthiness of a value that is either absent or a string:
      `undefined` and the empty string are falsy, every other string is truthy. */
  predicate Truthy(o: Option<string>)
  {
    o.Some? && o.value != ""
  }

  /** Property lookup `obj[key]` on a plain object used as a dictionary. */
  function Get<K, V>(m: map<K, V>, k: K): (r: Option<V>)
    ensures r.Some? <==> k in m
    ensures r.Some? ==> r.value == m[k]
  {
    if k in m then Some(m[k]) else None
  }

  /** The properties every plain object inherits from `Object.prototype`.
      Reading one of them as `obj[key]` on a dictionary that has no own entry
      for it gives a function or object, which is truthy. */
  const ObjectPrototypeKeys: set<string> := {
    "constructor", "hasOwnProperty", "isPrototypeOf", "propertyIsEnumerable",
    "toLocaleString", "toString", "valueOf", "__proto__",
    "__defineGetter__", "__defineSetter__", "__lookupGetter__", "__lookupSetter__"
  }

  /** Element access `arr[i]` on an array: out of range gives `undefined`. */
  function At<T>(s: seq<T>, i: nat): (r: Option<T>)
    ensures r.Some? <==> i < |s|
    ensures r.Some? ==> r.value == s[i]
  {
    if i < |s| then Some(s[i]) else None
  }
}

=== FILE: relay.dfy ===
/** The signaling and chat relay of the server: per-socket event handlers over a
    socket-to-peer-id map and the transport's room lists. Every handler is a pure
    step that returns the new state and the broadcasts it issues. */
module Relay {
  import opened Js
  import opened Transport
  import Auth

  /** The PeerJS id a client announces so that others can call it. */
  type PeerId = string

  /** The events the relay sends to clients. */
  datatype Message =
    | UserConnected(peerId: PeerId)
    | UserDisconnected(peerId: PeerId)
    | NewChatMessage(senderUsername: string, content: string)

  /** One broadcast: the sockets it reaches and what it carries. */
  datatype Emit = Emit(to: set<SocketId>, message: Message)

  /** The relay's state: the module-wide socket-to-peer map, the transport's room
      lists, and the user attached to each admitted socket. */
  datatype Server = Server(peerOf: map<SocketId, PeerId>, rooms: RoomTable, users: map<SocketId, Auth.User>)

  datatype Step = Step(server: Server, emits: seq<Emit>)

  const Empty: Server := Server(map[], map[], map[])

  /** Room lists are well formed, every connected socket has a user, and only a
      falsy (empty) peer id can outlive its socket in the map. */
  ghost predicate Valid(s: Server)
  {
    && WellFormed(s.rooms)
    && s.rooms.Keys == s.users.Keys
    && forall sid :: sid in s.peerOf && s.peerOf[sid] != "" ==> sid in s.rooms
  }

  /** Every key except `sid` has the same entry in both maps. */
  ghost predicate SameElsewhere(a: map<SocketId, PeerId>, b: map<SocketId, PeerId>, sid: SocketId)
  {
    forall k :: k != sid ==> (k in a <==> k in b) && (k in a ==> a[k] == b[k])
  }

  /** A new connection passes the authentication middleware or is refused.
      A refused connection leaves no trace; an admitted one carries exactly the
      verified identity and sits in the room named by its own id only. */
  function Connect(s: Server, sid: SocketId, token: Option<string>, verify: string -> Auth.Verdict): (r: Server)
    requires sid !in s.rooms && sid !in s.users
    ensures Valid(s) ==> Valid(r)
    ensures r.peerOf == s.peerOf
    ensures !Truthy(token) || verify(token.value).VerifyError? ==> r == s && sid !in r.users
    ensures Truthy(token) && verify(token.value).Decoded? ==>
      && r.users == s.users[sid := Auth.User(verify(token.value).claims.id, verify(token.value).claims.username)]
      && r.rooms == s.rooms[sid := [sid]]
      && (forall room :: Members(r.rooms, room) == if room == sid then Members(s.rooms, room) + {sid} else Members(s.rooms, room))
  {
    match Auth.Authenticate(token, verify)
    case Rejected(_) => s
    case Admitted(user) => s.(rooms := Open(s.rooms, sid), users := s.users[sid := user])
  }

  /** `join-room`: record the peer id (replacing any earlier one), join the room,
      then announce the peer id with `socket.to(roomId)`. */
  function JoinRoom(s: Server, sid: SocketId, roomId: Room, peerId: PeerId): (r: Step)
    requires sid in s.rooms
    ensures Valid(s) ==> Valid(r.server)
    ensures sid in r.server.peerOf && r.server.peerOf[sid] == peerId
    ensures SameElsewhere(r.server.peerOf, s.peerOf, sid)
    ensures r.server.users == s.users
    ensures r.server.rooms.Keys == s.rooms.Keys
    ensures r.server.rooms[sid] == AddRoom(s.rooms[sid], roomId)
    ensures forall other :: other in s.rooms && other != sid ==> r.server.rooms[other] == s.rooms[other]
    ensures Members(r.server.rooms, roomId) == Members(s.rooms, roomId) + {sid}
    ensures forall room :: room != roomId ==> Members(r.server.rooms, room) == Members(s.rooms, room)
    ensures |r.emits| == 1 && r.emits[0].message == UserConnected(peerId)
    ensures sid in s.rooms[sid] ==> r.emits[0].to == Members(s.rooms, roomId) - Members(s.rooms, sid)
    ensures WellFormed(s.rooms) && IdsUnclaimed(s.rooms) ==> r.emits[0].to == Members(s.rooms, roomId) - {sid}
  {
    var rooms := Join(s.rooms, sid, roomId);
    JoinMembers(s.rooms, sid, roomId);
    assert sid in s.rooms[sid] ==> Members(rooms, sid) == Members(s.rooms, sid);
    ToOthersIsOthers(s.rooms, roomId, sid);
    Step(s.(peerOf := s.peerOf[sid := peerId], rooms := rooms),
         [Emit(ToOthers(rooms, roomId, sid), UserConnected(peerId))])
  }

  /** The room a handler acts on: the second entry of the socket's room list,
      when it exists and is truthy (the first is the socket's own id). */
  function CurrentRoom(rooms: seq<Room>): (r: Option<Room>)
    ensures r.Some? <==> |rooms| >= 2 && rooms[1] != ""
    ensures r.Some? ==> r.value == rooms[1] && r.value in rooms
  {
    if Truthy(At(rooms, 1)) then Some(rooms[1]) else None
  }

  /** A socket that has joined no room has no current room. */
  lemma NoRoomBeforeJoin(sid: SocketId)
    ensures CurrentRoom([sid]) == None
  {
  }

  /** The current room is the first room joined, whatever is joined after it:
      the positional lookup tracks one room per socket. */
  lemma CurrentRoomIsFirstJoin(sid: SocketId, first: Room, later: seq<Room>)
    requires first != sid && first != ""
    ensures CurrentRoom(JoinAll(AddRoom([sid], first), later)) == Some(first)
  {
    var start := AddRoom([sid], first);
    assert start == [sid, first];
    JoinAllKeepsPrefix(start, later);
    var all := JoinAll(start, later);
    assert all[1] == all[..2][1] == start[1];
  }

  /** `chat-message`: fan `{senderUsername, content}` out to every member of
      the current room, the sender included; without a room, drop it. */
  function ChatMessage(s: Server, sid: SocketId, data: string): (r: Step)
    requires sid in s.rooms && sid in s.users
    ensures r.server == s
    ensures CurrentRoom(s.rooms[sid]).None? ==> r.emits == []
    ensures CurrentRoom(s.rooms[sid]).Some? ==>
      && |r.emits| == 1
      && r.emits[0].message == NewChatMessage(s.users[sid].username, data)
      && r.emits[0].to == Members(s.rooms, s.rooms[sid][1])
      && sid in r.emits[0].to
  {
    match CurrentRoom(s.rooms[sid])
    case None => Step(s, [])
    case Some(room) => Step(s, [Emit(ToAll(s.rooms, room), NewChatMessage(s.users[sid].username, data))])
  }

  /** `disconnect`, given the room list the socket shows when the handler runs.
      Only a truthy mapped peer id triggers anything: its entry is deleted and,
      when the list names a current room, `socket.to` tells that room. */
  function Disconnect(s: Server, sid: SocketId, seen: seq<Room>): (r: Step)
    ensures r.server.rooms == s.rooms && r.server.users == s.users
    ensures !Truthy(Get(s.peerOf, sid)) ==> r == Step(s, [])
    ensures Truthy(Get(s.peerOf, sid)) ==>
      && sid !in r.server.peerOf
      && SameElsewhere(r.server.peerOf, s.peerOf, sid)
      && (CurrentRoom(seen).None? ==> r.emits == [])
      && (CurrentRoom(seen).Some? ==>
            r.emits == [Emit(Members(s.rooms, seen[1]) - Members(s.rooms, sid), UserDisconnected(s.peerOf[sid]))])
    ensures Valid(s) ==> Valid(r.server)
  {
    var peerId := Get(s.peerOf, sid);
    if Truthy(peerId) then
      var emits :=
        match CurrentRoom(seen)
        case Some(room) => [Emit(ToOthers(s.rooms, room, sid), UserDisconnected(peerId.value))]
        case None => [];
      Step(s.(peerOf := s.peerOf - {sid}), emits)
    else
      Step(s, [])
  }

  /** A second `disconnect` for the same socket changes nothing and sends nothing. */
  lemma DisconnectIdempotent(s: Server, sid: SocketId, seen: seq<Room>, seenAgain: seq<Room>)
    ensures Disconnect(Disconnect(s, sid, seen).server, sid, seenAgain) == Step(Disconnect(s, sid, seen).server, [])
  {
  }

  /** The transport removes a closing socket from all its rooms and forgets it. */
  function Forget(s: Server, sid: SocketId): (r: Server)
    ensures r.peerOf == s.peerOf
    ensures sid !in r.rooms && sid !in r.users
    ensures forall other :: other in s.rooms && other != sid ==> other in r.rooms && r.rooms[other] == s.rooms[other]
    ensures forall room :: Members(r.rooms, room) == Members(s.rooms, room) - {sid}
    ensures Valid(s) && !Truthy(Get(s.peerOf, sid)) ==> Valid(r)
  {
    s.(rooms := Close(s.rooms, sid), users := s.users - {sid})
  }

  /** A socket closing as the code is written: the transport empties the
      socket's room list before `disconnect` fires, so the handler sees no room. */
  function CloseAsWritten(s: Server, sid: SocketId): (r: Step)
    requires sid in s.rooms
    ensures Valid(s) ==> Valid(r.server)
    ensures r.emits == []
    ensures sid !in r.server.rooms && sid !in r.server.users
    ensures forall room :: Members(r.server.rooms, room) == Members(s.rooms, room) - {sid}
    ensures !Truthy(Get(s.peerOf, sid)) ==> r.server.peerOf == s.peerOf
    ensures Truthy(Get(s.peerOf, sid)) ==> sid !in r.server.peerOf && SameElsewhere(r.server.peerOf, s.peerOf, sid)
  {
    Disconnect(Forget(s, sid), sid, [])
  }

  /** A socket closing with the handler run while the socket still shows its
      rooms (Socket.IO's `disconnecting` event), then the transport's teardown. */
  function CloseCorrected(s: Server, sid: SocketId): (r: Step)
    requires sid in s.rooms
    ensures Valid(s) ==> Valid(r.server)
    ensures sid !in r.server.rooms && sid !in r.server.users
    ensures forall room :: Members(r.server.rooms, room) == Members(s.rooms, room) - {sid}
    ensures !Truthy(Get(s.peerOf, sid)) ==> r.emits == [] && r.server.peerOf == s.peerOf
    ensures Truthy(Get(s.peerOf, sid)) ==> sid !in r.server.peerOf && SameElsewhere(r.server.peerOf, s.peerOf, sid)
    ensures Truthy(Get(s.peerOf, sid)) && CurrentRoom(s.rooms[sid]).Some? ==>
      r.emits == [Emit(Members(s.rooms, s.rooms[sid][1]) - Members(s.rooms, sid), UserDisconnected(s.peerOf[sid]))]
    ensures Valid(s) && r.emits != [] ==> sid !in r.emits[0].to
  {
    var step := Disconnect(s, sid, s.rooms[sid]);
    Step(Forget(step.server, sid), step.emits)
  }

  /** The discrepancy: when a joined socket with a peer id closes while another
      socket shares its room, the code as written tells nobody, whereas the
      corrected close tells that other socket that the peer left. */
  lemma AsWrittenLosesDeparture(s: Server, sid: SocketId, other: SocketId)
    requires sid in s.rooms && other in s.rooms && other != sid
    requires Truthy(Get(s.peerOf, sid))
    requires CurrentRoom(s.rooms[sid]).Some?
    requires s.rooms[sid][1] in s.rooms[other] && sid !in s.rooms[other]
    ensures CloseAsWritten(s, sid).emits == []
    ensures exists e :: e in CloseCorrected(s, sid).emits && other in e.to && e.message == UserDisconnected(s.peerOf[sid])
  {
    var e := CloseCorrected(s, sid).emits[0];
    assert other in Members(s.rooms, s.rooms[sid][1]);
    assert other !in Members(s.rooms, sid);
    assert e in CloseCorrected(s, sid).emits;
  }

  /** A socket that joined one room, and nothing else, chats in that room: the
      room `join-room` adds is the one `chat-message` later finds at index 1. */
  lemma ChatUsesJoinedRoom(s: Server, sid: SocketId, roomId: Room, peerId: PeerId, data: string)
    requires sid in s.rooms && sid in s.users && s.rooms[sid] == [sid]
    requires roomId != sid && roomId != ""
    ensures
      var joined := JoinRoom(s, sid, roomId, peerId).server;
      var chat := ChatMessage(joined, sid, data);
      && chat.emits == [Emit(Members(s.rooms, roomId) + {sid}, NewChatMessage(s.users[sid].username, data))]
      && chat.server == joined
  {
    var joined := JoinRoom(s, sid, roomId, peerId).server;
    assert joined.rooms[sid] == [sid, roomId];
  }

  /** Which `disconnect` the relay runs: the code as written, or the
      corrected one that reads the rooms before teardown. */
  datatype CloseMode = AsWritten | Corrected

  function CloseSocket(mode: CloseMode, s: Server, sid: SocketId): (r: Step)
    requires sid in s.rooms
    ensures Valid(s) ==> Valid(r.server)
    ensures sid !in r.server.rooms && sid !in r.server.users
  {
    match mode
    case AsWritten => CloseAsWritten(s, sid)
    case Corrected => CloseCorrected(s, sid)
  }

  /** What can happen to the relay. */
  datatype Event =
    | Connection(sid: SocketId, token: Option<string>)
    | JoinRoomEvent(sid: SocketId, roomId: Room, peerId: PeerId)
    | ChatEvent(sid: SocketId, data: string)
    | CloseEvent(sid: SocketId)

  /** One event through the relay. The transport assigns fresh socket ids and
      delivers events only from connected sockets, so anything else is dropped. */
  function Dispatch(s: Server, verify: string -> Auth.Verdict, mode: CloseMode, e: Event): (r: Step)
    ensures Valid(s) ==> Valid(r.server)
  {
    match e
    case Connection(sid, token) =>
      if sid in s.rooms || sid in s.users then Step(s, []) else Step(Connect(s, sid, token, verify), [])
    case JoinRoomEvent(sid, roomId, peerId) =>
      if sid in s.rooms && sid in s.users then JoinRoom(s, sid, roomId, peerId) else Step(s, [])
    case ChatEvent(sid, data) =>
      if sid in s.rooms && sid in s.users then ChatMessage(s, sid, data) else Step(s, [])
    case CloseEvent(sid) =>
      if sid in s.rooms then CloseSocket(mode, s, sid) else Step(s, [])
  }

  /** A socket's teardown happens once: a repeated close is dropped. */
  lemma CloseOnce(s: Server, verify: string -> Auth.Verdict, mode: CloseMode, sid: SocketId)
    requires sid in s.rooms
    ensures var first := Dispatch(s, verify, mode, CloseEvent(sid));
            Dispatch(first.server, verify, mode, CloseEvent(sid)) == Step(first.server, [])
  {
  }

  /** A sequence of events, with every broadcast in order. */
  function Run(s: Server, verify: string -> Auth.Verdict, mode: CloseMode, events: seq<Event>): Step
    decreases |events|
  {
    if events == [] then Step(s, [])
    else
      var first := Dispatch(s, verify, mode, events[0]);
      var rest := Run(first.server, verify, mode, events[1..]);
      Step(rest.server, first.emits + rest.emits)
  }

  /** Every reachable state is valid, for the code as written and for the
      corrected close alike. */
  lemma {:induction false} RunPreservesValid(s: Server, verify: string -> Auth.Verdict, mode: CloseMode, events: seq<Event>)
    requires Valid(s)
    ensures Valid(Run(s, verify, mode, events).server)
    decreases |events|
  {
    if events != [] {
      RunPreservesValid(Dispatch(s, verify, mode, events[0]).server, verify, mode, events[1..]);
    }
  }

  /** As written, no run ever sends `user-disconnected`: departures go unannounced. */
  lemma {:induction false} AsWrittenNeverAnnouncesDeparture(s: Server, verify: string -> Auth.Verdict, events: seq<Event>)
    ensures forall e :: e in Run(s, verify, AsWritten, events).emits ==> !e.message.UserDisconnected?
    decreases |events|
  {
    if events != [] {
      AsWrittenNeverAnnouncesDeparture(Dispatch(s, verify, AsWritten, events[0]).server, verify, events[1..]);
    }
  }
}

=== FILE: scenarios.dfy ===
/** Concrete runs of the relay: two users in one room, a refused connection,
    and a member of a socket-id room that misses an announcement. */
module Scenarios {
  import opened Js
  import opened Transport
  import opened Relay
  import Auth

  /** A verifier that accepts every token and reads the user name from it. */
  function AcceptAll(token: string): Auth.Verdict
  {
    Auth.Decoded(Auth.Claims(token, token))
  }

  function Connected(): Server
  {
    Connect(Connect(Empty, "A", Some("alice"), AcceptAll), "B", Some("bob"), AcceptAll)
  }

  function AJoined(): Server
  {
    JoinRoom(Connected(), "A", "abc", "h1").server
  }

  function BothJoined(): Server
  {
    JoinRoom(AJoined(), "B", "abc", "h2").server
  }

  lemma ConnectedState()
    ensures Connected().rooms == map["A" := ["A"], "B" := ["B"]]
    ensures Connected().users == map["A" := Auth.User("alice", "alice"), "B" := Auth.User("bob", "bob")]
    ensures Connected().peerOf == map[]
  {
  }

  /** A join's single announcement, once its audience is known. */
  lemma JoinAnnounces(s: Server, sid: SocketId, roomId: Room, peerId: PeerId, to: set<SocketId>)
    requires sid in s.rooms && sid in s.rooms[sid]
    requires Members(s.rooms, roomId) - Members(s.rooms, sid) == to
    ensures JoinRoom(s, sid, roomId, peerId).emits == [Emit(to, UserConnected(peerId))]
  {
    var r := JoinRoom(s, sid, roomId, peerId);
    assert r.emits[0] == Emit(to, UserConnected(peerId));
  }

  /** A joins "abc" as "h1": the room was empty, so nobody is told. */
  lemma FirstJoinTellsNobody()
    ensures JoinRoom(Connected(), "A", "abc", "h1").emits == [Emit({}, UserConnected("h1"))]
    ensures Members(AJoined().rooms, "abc") == {"A"}
  {
    ConnectedState();
    assert Members(Connected().rooms, "abc") == {};
    JoinAnnounces(Connected(), "A", "abc", "h1", {});
  }

  lemma AJoinedRooms()
    ensures AJoined().rooms.Keys == {"A", "B"}
    ensures AJoined().rooms["A"] == ["A", "abc"]
    ensures AJoined().rooms["B"] == ["B"]
  {
    ConnectedState();
    assert AddRoom(["A"], "abc") == ["A", "abc"];
  }

  /** B joins "abc" as "h2" once A sits there (as in `AJoined()`): only A is
      told. */
  lemma SecondJoinTellsFirst(s: Server)
    requires s.rooms.Keys == {"A", "B"}
    requires s.rooms["A"] == ["A", "abc"] && s.rooms["B"] == ["B"]
    ensures JoinRoom(s, "B", "abc", "h2").emits == [Emit({"A"}, UserConnected("h2"))]
    ensures Members(JoinRoom(s, "B", "abc", "h2").server.rooms, "abc") == {"A", "B"}
  {
    assert Members(s.rooms, "abc") == {"A"};
    assert Members(s.rooms, "B") == {"B"};
    JoinAnnounces(s, "B", "abc", "h2", {"A"});
  }

  /** After both joins, A and B sit in "abc" and B's peer id is recorded. */
  lemma BothJoinedState()
    ensures BothJoined().rooms.Keys == {"A", "B"}
    ensures BothJoined().rooms["A"] == ["A", "abc"]
    ensures BothJoined().rooms["B"] == ["B", "abc"]
    ensures BothJoined().users["B"] == Auth.User("bob", "bob")
    ensures Get(BothJoined().peerOf, "B") == Some("h2")
  {
    ConnectedState();
    AJoinedRooms();
    assert AddRoom(["B"], "abc") == ["B", "abc"];
  }

  /** B chats "hello" with A and B in "abc" (as in `BothJoined()`): both
      receive it under B's name. */
  lemma ChatReachesWholeRoom(s: Server)
    requires s.rooms.Keys == {"A", "B"}
    requires s.rooms["A"] == ["A", "abc"] && s.rooms["B"] == ["B", "abc"]
    requires "B" in s.users && s.users["B"] == Auth.User("bob", "bob")
    ensures ChatMessage(s, "B", "hello").emits == [Emit({"A", "B"}, NewChatMessage("bob", "hello"))]
  {
    assert Members(s.rooms, "abc") == {"A", "B"};
    var r := ChatMessage(s, "B", "hello");
    assert r.emits[0] == Emit({"A", "B"}, NewChatMessage("bob", "hello"));
  }

  /** B, announced as "h2", leaves a room it shares with A (as in
      `BothJoined()`): with the corrected close only A is told; as written,
      nobody is. */
  lemma LeaveTellsTheOthers(s: Server)
    requires s.rooms.Keys == {"A", "B"}
    requires s.rooms["A"] == ["A", "abc"] && s.rooms["B"] == ["B", "abc"]
    requires Get(s.peerOf, "B") == Some("h2")
    ensures CloseCorrected(s, "B").emits == [Emit({"A"}, UserDisconnected("h2"))]
    ensures CloseAsWritten(s, "B").emits == []
  {
    assert Members(s.rooms, "abc") == {"A", "B"};
    assert Members(s.rooms, "B") == {"B"};
    assert Members(s.rooms, "abc") - Members(s.rooms, "B") == {"A"};
    assert Truthy(Get(s.peerOf, "B")) && s.peerOf["B"] == "h2";
    assert CurrentRoom(s.rooms["B"]) == Some("abc");
  }

  /** A chat sent before joining a room reaches nobody and changes nothing. */
  lemma ChatBeforeJoinIsDropped()
    ensures
      var s := Connect(Empty, "A", Some("alice"), AcceptAll);
      ChatMessage(s, "A", "hi") == Step(s, [])
  {
  }

  /** A connection without a token, or with one the verifier refuses, never
      gets a user or a room, so a later join from it is dropped. */
  lemma RefusedConnectionCannotJoin(token: Option<string>, verify: string -> Auth.Verdict, mode: CloseMode)
    requires !Truthy(token) || verify(token.value).VerifyError?
    ensures
      var s := Connect(Empty, "A", token, verify);
      s == Empty && Dispatch(s, verify, mode, JoinRoomEvent("A", "abc", "h1")) == Step(Empty, [])
  {
  }

  function AAndC(): Server
  {
    Connect(Connect(Empty, "A", Some("alice"), AcceptAll), "C", Some("carol"), AcceptAll)
  }

  function CInA(): Server
  {
    JoinRoom(AAndC(), "C", "A", "h3").server
  }

  /** C has joined the room named by A's socket id, then "abc". */
  function CInsideA(): Server
  {
    JoinRoom(CInA(), "C", "abc", "h3").server
  }

  lemma AAndCRooms()
    ensures AAndC().rooms.Keys == {"A", "C"}
    ensures AAndC().rooms["A"] == ["A"]
    ensures AAndC().rooms["C"] == ["C"]
  {
  }

  lemma CInARooms()
    ensures CInA().rooms.Keys == {"A", "C"}
    ensures CInA().rooms["A"] == ["A"]
    ensures CInA().rooms["C"] == ["C", "A"]
  {
    AAndCRooms();
    assert AddRoom(["C"], "A") == ["C", "A"];
  }

  lemma CInsideARooms()
    ensures CInsideA().rooms.Keys == {"A", "C"}
    ensures CInsideA().rooms["A"] == ["A"]
    ensures CInsideA().rooms["C"] == ["C", "A", "abc"]
  {
    CInARooms();
    assert AddRoom(["C", "A"], "abc") == ["C", "A", "abc"];
  }

  /** A joins "abc" after C has joined the room named by A's id and "abc", as
      in `CInsideA()`. `socket.to` leaves out every member of the room named by
      A's id, so C, although it sits in "abc", is not told that A arrived. */
  lemma IdRoomMemberMissesAnnouncement(s: Server)
    requires s.rooms.Keys == {"A", "C"}
    requires s.rooms["A"] == ["A"] && s.rooms["C"] == ["C", "A", "abc"]
    ensures "C" in Members(s.rooms, "abc")
    ensures JoinRoom(s, "A", "abc", "h1").emits == [Emit({}, UserConnected("h1"))]
  {
    assert Members(s.rooms, "A") == {"A", "C"};
    assert Members(s.rooms, "abc") == {"C"};
    JoinAnnounces(s, "A", "abc", "h1", {});
  }

  /** The two-user run on the concrete states: B's join tells A, B's chat
      reaches both, and B's departure reaches A only under the corrected
      close. */
  lemma TwoUserRun()
    ensures JoinRoom(AJoined(), "B", "abc", "h2").emits == [Emit({"A"}, UserConnected("h2"))]
    ensures ChatMessage(BothJoined(), "B", "hello").emits == [Emit({"A", "B"}, NewChatMessage("bob", "hello"))]
    ensures CloseCorrected(BothJoined(), "B").emits == [Emit({"A"}, UserDisconnected("h2"))]
    ensures CloseAsWritten(BothJoined(), "B").emits == []
  {
    AJoinedRooms();
    SecondJoinTellsFirst(AJoined());
    BothJoinedState();
    ChatReachesWholeRoom(BothJoined());
    LeaveTellsTheOthers(BothJoined());
  }

  /** The id-room run on the concrete state: C sits in "abc" yet is not told
      of A's join. */
  lemma IdRoomRun()
    ensures "C" in Members(CInsideA().rooms, "abc")
    ensures JoinRoom(CInsideA(), "A", "abc", "h1").emits == [Emit({}, UserConnected("h1"))]
  {
    CInsideARooms();
    IdRoomMemberMissesAnnouncement(CInsideA());
  }
}

=== FILE: transport.dfy ===
/** The slice of Socket.IO's server-side room semantics that the relay relies on.
    Every connected socket has an ordered room list (a JavaScript `Set`, which keeps
    insertion order); the transport puts the socket's own id first when it connects. */
module Transport {

  type SocketId = string
  type Room = string

  /** For every connected socket, its room list in insertion order. */
  type RoomTable = map<SocketId, seq<Room>>

  ghost predicate Distinct(rooms: seq<Room>)
  {
    forall i, j :: 0 <= i < j < |rooms| ==> rooms[i] != rooms[j]
  }

  /** Each socket's list starts with its own id and, being a set, has no repeats. */
  ghost predicate WellFormed(t: RoomTable)
  {
    forall sid :: sid in t ==> |t[sid]| >= 1 && t[sid][0] == sid && Distinct(t[sid])
  }

  /** The members of a room: every connected socket whose list holds it. */
  function Members(t: RoomTable, room: Room): set<SocketId>
  {
    set sid | sid in t && room in t[sid]
  }

  /** `socket.to(room)`: Socket.IO excepts the room named by the sender's id,
      so the members of `room` minus every member of that room. The sender
      itself is one of them while it sits in its own room. */
  function ToOthers(t: RoomTable, room: Room, sender: SocketId): (r: set<SocketId>)
    ensures r <= Members(t, room)
    ensures r !! Members(t, sender)
    ensures sender in t && sender in t[sender] ==> sender !in r
  {
    Members(t, room) - Members(t, sender)
  }

  /** No socket sits in a room named by another socket's id. */
  ghost predicate IdsUnclaimed(t: RoomTable)
  {
    forall a, b :: a in t && b in t && b in t[a] ==> a == b
  }

  /** When no socket has joined a room named by another socket's id, the
      sockets `socket.to(room)` reaches are exactly the room's members other
      than the sender. */
  lemma ToOthersIsOthers(t: RoomTable, room: Room, sender: SocketId)
    ensures WellFormed(t) && IdsUnclaimed(t) && sender in t ==>
      ToOthers(t, room, sender) == Members(t, room) - {sender}
  {
    if WellFormed(t) && IdsUnclaimed(t) && sender in t {
      assert t[sender][0] == sender;
      assert Members(t, sender) == {sender};
    }
  }

  /** A socket that joined the room named by the sender's id is skipped by
      `socket.to`, even when it shares `room` with the sender. */
  lemma ToOthersSkipsIdRoom(t: RoomTable, room: Room, sender: SocketId, other: SocketId)
    requires other in t && room in t[other] && sender in t[other]
    ensures other in Members(t, room)
    ensures other !in ToOthers(t, room, sender)
  {
  }

  /** `io.to(room)`: every member of `room`, the sender included when it is one. */
  function ToAll(t: RoomTable, room: Room): set<SocketId>
  {
    Members(t, room)
  }

  /** Adding a room to a socket's set: a room already present keeps its place,
      a new one goes last. */
  function AddRoom(rooms: seq<Room>, room: Room): (r: seq<Room>)
    ensures room in r
    ensures forall x :: x in r <==> x in rooms || x == room
    ensures |rooms| <= |r| && r[..|rooms|] == rooms
    ensures Distinct(rooms) ==> Distinct(r)
  {
    if room in rooms then rooms else rooms + [room]
  }

  /** The transport admits a socket: its room list is its own id alone. */
  function Open(t: RoomTable, sid: SocketId): (r: RoomTable)
    requires sid !in t
    ensures WellFormed(t) ==> WellFormed(r)
    ensures sid in r && r[sid] == [sid]
    ensures forall room :: Members(r, room) == if room == sid then Members(t, room) + {sid} else Members(t, room)
  {
    t[sid := [sid]]
  }

  /** `socket.join(room)`. */
  function Join(t: RoomTable, sid: SocketId, room: Room): (r: RoomTable)
    requires sid in t
    ensures WellFormed(t) ==> WellFormed(r)
    ensures r.Keys == t.Keys
    ensures r[sid] == AddRoom(t[sid], room)
    ensures forall other :: other in t && other != sid ==> r[other] == t[other]
  {
    t[sid := AddRoom(t[sid], room)]
  }

  /** The transport's teardown of a closing socket (`leaveAll` and removal). */
  function Close(t: RoomTable, sid: SocketId): (r: RoomTable)
    ensures WellFormed(t) ==> WellFormed(r)
    ensures sid !in r && r.Keys == t.Keys - {sid}
    ensures forall room :: Members(r, room) == Members(t, room) - {sid}
  {
    t - {sid}
  }

  /** After `socket.join(room)` the joiner is a member of `room` in addition to
      the earlier members, and no other room's membership changes. */
  lemma JoinMembers(t: RoomTable, sid: SocketId, room: Room)
    requires sid in t
    ensures Members(Join(t, sid, room), room) == Members(t, room) + {sid}
    ensures forall other :: other != room ==> Members(Join(t, sid, room), other) == Members(t, other)
  {
  }

  /** Joining several rooms one after another, as repeated `socket.join` calls do. */
  function JoinAll(rooms: seq<Room>, later: seq<Room>): (r: seq<Room>)
    decreases |later|
  {
    if later == [] then rooms else JoinAll(AddRoom(rooms, later[0]), later[1..])
  }

  /** Later joins never move a room that is already in the list. */
  lemma {:induction false} JoinAllKeepsPrefix(rooms: seq<Room>, later: seq<Room>)
    ensures |rooms| <= |JoinAll(rooms, later)|
    ensures JoinAll(rooms, later)[..|rooms|] == rooms
    decreases |later|
  {
    if later != [] {
      var next := AddRoom(rooms, later[0]);
      JoinAllKeepsPrefix(next, later[1..]);
      assert JoinAll(rooms, later)[..|next|] == next;
      assert next[..|rooms|] == rooms;
      assert JoinAll(rooms, later)[..|rooms|] == JoinAll(rooms, later)[..|next|][..|rooms|];
    }
  }
}
